=== FILE: README.md ===
# Recommendation service state machine

A Dafny model of the in-memory core of a music-recommendation web service
(`main.py`). The service keeps three process-wide tables:

- a weight per artist (every allowed artist starts at 1; a "like" adds 2, a
  "dislike" subtracts 3 but never goes below 1);
- per user, the set of track ids already recommended;
- per user, the list of subscribed artist ids (loaded from a JSON file at
  start-up).

The recommendation endpoint builds the candidate artists: all allowed artists,
or only the user's subscriptions. It draws a weighted sequence of candidates as
long as the candidate list. It walks that sequence and, for each artist, lists
the artist's tracks across all albums, dropping tracks already shown to the
user and repeated ids. From the first non-empty listing it picks one track,
marks it shown and returns it. If no drawn artist has such a track, it answers
"No more tracks found.".

Every endpoint is a pure transition function over immutable maps, sets and
sequences (`Service.Step`), and a run of requests is their fold
(`Service.Run`). The outside world is a parameter (`Domain.Env`):

- the allowed-artist table is a `Roster` (ids in table order plus names);
- the music catalog is a function from artist id to albums of tracks.

The two random calls are oracle inputs. The weighted draw takes a sequence of
naturals, and entry `i` of the draw is `candidates[picks[i] % n]`. The track
choice takes a natural and picks `tracks[choice % |tracks|]`.
`Selector.DrawReachesEveryOutcome` shows the draw oracle misses no outcome the
library call can produce. For the track choice this holds because `k % n == k`
for every position `k < n`.

Modules, one per component: `Wrappers`, `Domain` (identifiers, records,
responses), `TrackListing` (the per-artist listing loop), `Weights` (the react
endpoint), `Subscriptions`, `Selector` (the recommendation endpoint), and
`Service` (the whole state machine).

## Model

| member | source | states |
|---|---|---|
| TrackListing.Flatten | main.py:67-68 | the flattened listing holds exactly the tracks of the artist's albums |
| TrackListing.Fresh | main.py:64-71 | the listing holds only catalog tracks, no id already shown, no id twice, and every unshown catalog id appears in it |
| TrackListing.CollectTracks | main.py:63-71 | the nested album/track loop with its `seen` set computes exactly the reference listing, so its result has no shown id and no repeated id |
| Weights.InitialWeights | main.py:34 | at start-up every allowed artist has an entry, and every artist, listed or not, reads as weight 1 |
| Weights.React | main.py:96-105 | "like" raises the weight (default 1 when absent) by 2 and answers "Liked"; "dislike" sets it to max(1, old - 3) and answers "Disliked"; any other string answers "Unknown reaction type." and leaves the table unchanged; no other artist's entry changes |
| Weights.DislikeNeverBelowFloor | main.py:101-102 | after a dislike the artist's weight is at least 1, whatever it was before |
| Weights.ReactKeepsFloor | main.py:97-105 | if every weight is at least 1 before a reaction, every weight is at least 1 after it |
| Weights.FloorHoldsAfterReactions | main.py:96-105 | from a table with every weight at least 1, any sequence of reactions leaves every artist's weight at least 1 |
| Weights.LikeThenDislikeExample | main.py:98-105 | from the default, one like gives 3, a following dislike gives 1, and "meh" is rejected without a change |
| Subscriptions.GetSubscriptions | main.py:126-130 | the user's stored list, or the empty list for an unknown user |
| Subscriptions.Subscribe | main.py:112-123 | always answers "Subscribed"; an artist already in the list leaves the whole table unchanged; otherwise the artist is appended at the end; the user always has a list afterwards; no other user's list changes |
| Subscriptions.SubscribeIdempotent | main.py:117-118 | subscribing twice to the same artist gives the same table and answer as subscribing once |
| Subscriptions.SubscribeKeepsDuplicateFree | main.py:114-118 | if no user's list has a duplicate, none has one after a subscription |
| Subscriptions.ListingAfterSubscribe | main.py:113-130 | after subscribing, the subscriptions endpoint lists the artist for that user and is unchanged for every other user |
| Selector.TotalWeightAtLeastLength | main.py:58 | with every weight at least 1, the weights passed to the draw sum to at least the number of candidates |
| Selector.Draw | main.py:56-60 | the draw has exactly as many entries as candidates and each is a candidate; it fails only when there are candidates and their weights sum to zero or less |
| Selector.DrawAsWritten | main.py:56-60 | the library draw raises on an empty candidate list and otherwise behaves as the corrected draw |
| Selector.DrawSucceedsAboveFloor | main.py:56-60 | with every weight at least 1 the draw never fails |
| Selector.DrawReachesEveryOutcome | main.py:56-60 | every candidate sequence of the right length is the draw for some oracle input, so the abstraction loses no outcome |
| Selector.FirstProductive | main.py:62-73 | finds the first drawn artist whose listing is non-empty; when it finds none, every drawn artist's listing is empty |
| Selector.Recommend | main.py:47-88 | builds the candidates (helper `Selector.Candidates`, lines 48-51) and hands the draw to `Selector.Serve` (lines 53-88). A returned track was not shown before; afterwards the user's shown set is the old set plus its id. Its artist is the first drawn artist whose listing is non-empty, the card is built from a track record of that listing and from the artist's catalog, the artist is a candidate, and the display name is from the allowed table. "No more tracks found." holds exactly when every drawn artist's listing is empty, and then the shown set only gains an empty entry. An empty candidate list gives "No more tracks found." When that first drawn artist is not in the allowed table, the answer is a server error, and the track picked from its listing has already been added to the shown set. No other user's set changes |
| Selector.RecommendAsWritten | main.py:47-88 | as written, an empty candidate list ends in a server error after the user's shown set was initialised; otherwise it behaves as the corrected endpoint |
| Selector.EmptySubscriptionsCrashAsWritten | main.py:48-60 | a user with no subscriptions (no entry, or an empty list) asking for subscribed artists only gets a server error as written, and "No more tracks found." with no track recorded from the corrected endpoint |
| Selector.AsWrittenDiffersOnlyInAnswer | main.py:47-88 | the endpoint as written leaves exactly the state the corrected one leaves; their answers differ only on an empty candidate list, server error against "No more tracks found." |
| Selector.RecommendNeverFails | main.py:56-80 | with weights at least 1 and every candidate in the allowed table, the endpoint answers with a track or "No more tracks found.", never a server error |
| Selector.RecommendAllArtistsNeverFails | main.py:50-80 | over all allowed artists of a well-formed table, with weights at least 1, the endpoint never ends in a server error |
| Service.Init | main.py:34-43 | at start-up every weight reads 1, nobody has been shown anything, the subscriptions are the loaded ones, and the invariant holds when the loaded lists are duplicate-free |
| Service.Step | main.py:46-142 | each endpoint keeps the weight floor, and keeps lists duplicate-free when they were; shown sets only grow; a returned track was unseen before the request and is recorded after it; only the recommendation endpoint touches shown sets, only react touches weights, only subscribe touches subscriptions |
| Service.Run | main.py:46-142 | a run answers once per request, keeps the weight floor, keeps lists duplicate-free when they were, and never shrinks a user's shown set; every track it recommends was unseen by that user at its start, and no user is recommended the same track twice in it |
| Service.RecommendedTracksWereUnseen | main.py:69-75 | every track a run recommends to a user was outside that user's shown set at the start of the run |
| Service.NoTrackRecommendedTwice | main.py:53-75 | within one run no user is recommended the same track id twice |
| Service.WeightsStayAboveFloor | main.py:96-105 | from start-up, whatever requests arrive, every artist's weight stays at least 1; a duplicate-free subscription file stays duplicate-free |

## Left out

- `voice_message_handler.py`: HTTP downloads, secondary-catalog search and audio transcoding. This is foreign I/O with no internal logic.
- The catalog client calls (main.py:63, 68) are the `Discography` parameter. The `album_type`, `country` and `limit=50` arguments are not modelled. The catalog returns whatever albums it returns.
- The album-cover lookup (main.py:84-85): the response carries no cover field.
- The probabilities of the weighted and uniform random choices. Weights matter only through the draw's refusal of a non-positive total.
- File persistence: loading `subscriptions.json` at start-up is the `loaded` parameter of `Service.Init`. Rewriting the file on subscribe and appending to `feedback.txt` are not modelled. The feedback endpoint is modelled only by its "Feedback saved" answer.
- Web routing, CORS, request models and credential loading (main.py:1-32, 91-94, 108-110, 133-136).
- The contents of the allowed-artist table (`allowed_artists.py` is not part of this model). It is the `Roster` parameter. Its lookup at main.py:80 is modelled as a `MissingArtistName` server error, raised after the track was marked shown, as the code orders it, and not as a precondition.
- Catalog-call failures (uncaught exceptions) and concurrency between requests: each request is one atomic transition.
- Service.Step: the recommendation request runs the corrected endpoint `Selector.Recommend`, so an empty candidate list answers "No more tracks found." where main.py:56-60 raises a server error (see Findings). `Selector.AsWrittenDiffersOnlyInAnswer` shows the two leave the same state and differ only in that answer. So the run lemmas about shown sets, weights and recommended tracks hold of the code as written as well.
- Service.Run: the subscription part of the invariant holds only when the loaded subscription file is duplicate-free. The code does not check this on load.

## Findings

| source | as written | input that shows it | evidently intended | confidence | as-written member | corrected member |
|---|---|---|---|---|---|---|
| main.py:56-60 | the weighted draw is called with `weights=` on the candidate list even when that list is empty; CPython's `random.choices` then indexes the last cumulative weight of an empty list and raises `IndexError`, an HTTP 500 | `only_subscribed=true` for a user with no subscriptions (or an empty allowed-artist table) | the answer "No more tracks found." with no track recorded | high for CPython's `random.choices`; not executed | Selector.RecommendAsWritten | Selector.Recommend |

The corrected endpoint is the one `Service.Step` uses. The as-written endpoint
still initialises the user's shown set before raising, because main.py:53-54
runs before the draw.

=== FILE: domain.dfy ===
/**
 The vocabulary of the recommendation service: identifiers, the records the
 music catalog hands back, the table of allowed artists, and the JSON bodies
 the endpoints answer with.
 */
module Domain {
  import opened Wrappers

  type ArtistId = string
  type TrackId = string
  type UserId = string

  /** A track record, reduced to the fields the service reads. */
  datatype Track = Track(id: TrackId, name: string, url: string, previewUrl: Option<string>)

  /** An album or single of an artist, with its tracks in catalog order. */
  datatype Album = Album(id: string, tracks: seq<Track>)

  /** The external music catalog: the albums and singles of every artist, in catalog order. */
  type Discography = ArtistId -> seq<Album>

  /**
   The fixed table of allowed artists: the artist ids in table order and the
   display name of each.
   */
  datatype Roster = Roster(order: seq<ArtistId>, names: map<ArtistId, string>)

  /** No value appears twice in the sequence. */
  ghost predicate NoDuplicates<T>(s: seq<T>) {
    forall i, j :: 0 <= i < j < |s| ==> s[i] != s[j]
  }

  /** A roster is a table: every id is listed once and has a name. */
  ghost predicate ValidRoster(roster: Roster) {
    && NoDuplicates(roster.order)
    && (forall a :: a in roster.names <==> a in roster.order)
  }

  /** Everything outside the service's own state: the allowed artists and the catalog. */
  datatype Env = Env(roster: Roster, catalog: Discography)

  /** The uncaught Python exceptions a request can end in (an HTTP 500 response). */
  datatype Fault =
    | EmptyPopulation         // IndexError from a weighted draw over no artists
    | NonPositiveTotalWeight  // ValueError from a weighted draw whose weights sum to zero or less
    | MissingArtistName       // KeyError from looking up an artist outside the allowed table

  /** The bodies the endpoints answer with. */
  datatype Response =
    | TrackCard(id: TrackId, name: string, artist: string, artistId: ArtistId,
                url: string, previewUrl: Option<string>)
    | Message(message: string)
    | Error(error: string)
    | SubscriptionList(subscriptions: seq<ArtistId>)
    | ServerError(fault: Fault)
}

=== FILE: selector.dfy ===
/**
 The recommendation selector: build the candidate artists, draw a weighted
 sequence of artists as long as the candidate list, and walk it until an
 artist still has a track the user has not been shown.

 The two random calls are oracle inputs. The weighted draw takes `picks`:
 draw position `i` holds `candidates[picks[i] % n]` (a missing pick reads as
 0); the track choice takes `choice` and picks `tracks[choice % |tracks|]`.
 Every outcome the random calls can produce is reachable this way; the
 probabilities are not modelled.
 */
module Selector {
  import opened Wrappers
  import opened Domain
  import opened TrackListing
  import opened Weights
  import opened Subscriptions

  const NoMoreTracks := "No more tracks found."

  /** The ids of the tracks each user has already been shown. */
  type ShownTable = map<UserId, set<TrackId>>

  /** The tracks already shown to a user: none for a user the table does not know. */
  function ShownTo(shown: ShownTable, user: UserId): set<TrackId> {
    if user in shown then shown[user] else {}
  }

  /** The artists to draw from: the user's subscriptions, or every allowed artist in table order. */
  function Candidates(roster: Roster, subs: SubscriptionTable, user: UserId, onlySubscribed: bool): seq<ArtistId> {
    if onlySubscribed then GetSubscriptions(subs, user) else roster.order
  }

  /** The sum of the weights the draw is given, one per candidate. */
  function TotalWeight(weights: WeightTable, candidates: seq<ArtistId>): int
    decreases |candidates|
  {
    if candidates == [] then 0
    else WeightOf(weights, candidates[0]) + TotalWeight(weights, candidates[1..])
  }

  /** With every weight at or above the floor, the total is at least the number of candidates. */
  lemma {:induction false} TotalWeightAtLeastLength(weights: WeightTable, candidates: seq<ArtistId>)
    requires AboveFloor(weights)
    ensures TotalWeight(weights, candidates) >= |candidates|
    decreases |candidates|
  {
    if candidates != [] {
      TotalWeightAtLeastLength(weights, candidates[1..]);
    }
  }

  function PickAt(picks: seq<nat>, i: nat): nat {
    if i < |picks| then picks[i] else 0
  }

  /**
   The weighted draw with replacement, as the selector needs it: as many
   entries as candidates, each one a candidate. An empty candidate list
   gives the empty draw; weights summing to zero or less are refused.
   */
  function Draw(candidates: seq<ArtistId>, weights: WeightTable, picks: seq<nat>): (r: Result<seq<ArtistId>, Fault>)
    ensures r.Success? ==> |r.value| == |candidates|
    ensures r.Success? ==> forall i :: 0 <= i < |r.value| ==> r.value[i] in candidates
    ensures r.Failure? <==> candidates != [] && TotalWeight(weights, candidates) <= 0
    ensures r.Failure? ==> r.error == NonPositiveTotalWeight
  {
    var n := |candidates|;
    if n == 0 then Success([])
    else if TotalWeight(weights, candidates) <= 0 then Failure(NonPositiveTotalWeight)
    else Success(seq(n, i requires 0 <= i < n => candidates[PickAt(picks, i) % n]))
  }

  /**
   The draw as the endpoint performs it: the weighted-choice library call
   reads the last cumulative weight before anything else, so an empty
   candidate list raises instead of giving the empty draw.
   */
  function DrawAsWritten(candidates: seq<ArtistId>, weights: WeightTable, picks: seq<nat>): (r: Result<seq<ArtistId>, Fault>)
    ensures candidates == [] ==> r == Failure(EmptyPopulation)
    ensures candidates != [] ==> r == Draw(candidates, weights, picks)
  {
    if candidates == [] then Failure(EmptyPopulation) else Draw(candidates, weights, picks)
  }

  /** With every weight at or above the floor, the draw never fails. */
  lemma DrawSucceedsAboveFloor(candidates: seq<ArtistId>, weights: WeightTable, picks: seq<nat>)
    requires AboveFloor(weights)
    ensures Draw(candidates, weights, picks).Success?
  {
    TotalWeightAtLeastLength(weights, candidates);
  }

  lemma ModBelow(k: nat, n: nat)
    requires k < n
    ensures k % n == k
  {
  }

  /** The position of the first occurrence of `x` in `s`. */
  function IndexOf(s: seq<ArtistId>, x: ArtistId): (k: nat)
    requires x in s
    ensures k < |s| && s[k] == x
  {
    if s[0] == x then 0 else 1 + IndexOf(s[1..], x)
  }

  /**
   The oracle misses no outcome: every sequence of candidates as long as the
   candidate list is the draw for some picks.
   */
  lemma DrawReachesEveryOutcome(candidates: seq<ArtistId>, weights: WeightTable, drawn: seq<ArtistId>)
    requires |drawn| == |candidates|
    requires forall i :: 0 <= i < |drawn| ==> drawn[i] in candidates
    requires candidates == [] || TotalWeight(weights, candidates) > 0
    ensures exists picks :: Draw(candidates, weights, picks) == Success(drawn)
  {
    var n := |candidates|;
    if n == 0 {
      assert Draw(candidates, weights, []) == Success(drawn);
    } else {
      var picks := seq(n, i requires 0 <= i < n => IndexOf(candidates, drawn[i]));
      var r := seq(n, i requires 0 <= i < n => candidates[PickAt(picks, i) % n]);
      forall i | 0 <= i < n
        ensures r[i] == drawn[i]
      {
        var k := IndexOf(candidates, drawn[i]);
        assert PickAt(picks, i) == k;
        ModBelow(k, n);
      }
      assert r == drawn;
      assert Draw(candidates, weights, picks) == Success(r);
    }
  }

  /** The listing of one artist for a user who has been shown `shown`. */
  function Listing(catalog: Discography, shown: set<TrackId>, artist: ArtistId): seq<Track> {
    Fresh(Flatten(catalog(artist)), shown)
  }

  /** The position of the first drawn artist whose listing is not empty, if there is one. */
  function FirstProductive(draw: seq<ArtistId>, catalog: Discography, shown: set<TrackId>): (k: Option<nat>)
    ensures k.Some? ==> k.value < |draw| && Listing(catalog, shown, draw[k.value]) != []
    ensures k.Some? ==> forall i :: 0 <= i < k.value ==> Listing(catalog, shown, draw[i]) == []
    ensures k.None? <==> forall i :: 0 <= i < |draw| ==> Listing(catalog, shown, draw[i]) == []
    decreases |draw|
  {
    if draw == [] then None
    else if Listing(catalog, shown, draw[0]) != [] then Some(0)
    else
      match FirstProductive(draw[1..], catalog, shown)
      case None => None
      case Some(k) => Some(k + 1)
  }

  /** The response body for a recommended track. */
  function CardOf(track: Track, artistName: string, artist: ArtistId): Response {
    TrackCard(track.id, track.name, artistName, artist, track.url, track.previewUrl)
  }

  /**
   The rest of the endpoint once the draw is known: make sure the user has a
   shown set, walk the draw, pick a track from the first non-empty listing,
   mark it shown, then look up the artist's display name.
   */
  function Serve(env: Env, shown: ShownTable, user: UserId, drawn: Result<seq<ArtistId>, Fault>, choice: nat): (ShownTable, Response) {
    var seen := ShownTo(shown, user);
    var initialised := shown[user := seen];
    match drawn
    case Failure(fault) => (initialised, ServerError(fault))
    case Success(draw) =>
      match FirstProductive(draw, env.catalog, seen)
      case None => (initialised, Message(NoMoreTracks))
      case Some(k) =>
        var artist := draw[k];
        var tracks := Listing(env.catalog, seen, artist);
        var track := tracks[choice % |tracks|];
        var marked := shown[user := seen + {track.id}];
        if artist in env.roster.names then (marked, CardOf(track, env.roster.names[artist], artist))
        else (marked, ServerError(MissingArtistName))
  }

  /**
   The recommendation endpoint, with an empty candidate list answered by
   "No more tracks found." as intended.
   */
  function Recommend(env: Env, weights: WeightTable, subs: SubscriptionTable, shown: ShownTable,
                     user: UserId, onlySubscribed: bool, picks: seq<nat>, choice: nat): (r: (ShownTable, Response))
    ensures r.0.Keys == shown.Keys + {user}
    ensures forall u :: u in shown && u != user ==> r.0[u] == shown[u]
    ensures ShownTo(shown, user) <= r.0[user]
    ensures r.1.TrackCard? || r.1 == Message(NoMoreTracks) || r.1.ServerError?
    ensures r.1.TrackCard? ==>
              && r.1.id !in ShownTo(shown, user)
              && r.0[user] == ShownTo(shown, user) + {r.1.id}
              && r.1.artistId in Candidates(env.roster, subs, user, onlySubscribed)
              && r.1.artistId in env.roster.names
              && r.1.artist == env.roster.names[r.1.artistId]
              && (exists t :: t in Listing(env.catalog, ShownTo(shown, user), r.1.artistId) && r.1 == CardOf(t, r.1.artist, r.1.artistId))
    ensures r.1.TrackCard? ==>
              var d := Draw(Candidates(env.roster, subs, user, onlySubscribed), weights, picks);
              && d.Success?
              && FirstProductive(d.value, env.catalog, ShownTo(shown, user)).Some?
              && r.1.artistId == d.value[FirstProductive(d.value, env.catalog, ShownTo(shown, user)).value]
              && r.1.id in IdsOf(Listing(env.catalog, ShownTo(shown, user), r.1.artistId))
    ensures !r.1.TrackCard? && r.1 != ServerError(MissingArtistName) ==> r.0[user] == ShownTo(shown, user)
    ensures r.1 == ServerError(MissingArtistName) ==>
              var d := Draw(Candidates(env.roster, subs, user, onlySubscribed), weights, picks);
              && d.Success?
              && FirstProductive(d.value, env.catalog, ShownTo(shown, user)).Some?
              && var artist := d.value[FirstProductive(d.value, env.catalog, ShownTo(shown, user)).value];
                 && artist !in env.roster.names
                 && exists t :: t in Listing(env.catalog, ShownTo(shown, user), artist) && r.0[user] == ShownTo(shown, user) + {t.id}
    ensures r.1 == Message(NoMoreTracks) <==>
              && Draw(Candidates(env.roster, subs, user, onlySubscribed), weights, picks).Success?
              && var draw := Draw(Candidates(env.roster, subs, user, onlySubscribed), weights, picks).value;
                 forall i :: 0 <= i < |draw| ==> Listing(env.catalog, ShownTo(shown, user), draw[i]) == []
    ensures Candidates(env.roster, subs, user, onlySubscribed) == [] ==> r.1 == Message(NoMoreTracks)
    ensures r.1.ServerError? ==> r.1.fault != EmptyPopulation
  {
    var candidates := Candidates(env.roster, subs, user, onlySubscribed);
    Serve(env, shown, user, Draw(candidates, weights, picks), choice)
  }

  /**
   The recommendation endpoint as written, where an empty candidate list
   makes the weighted draw raise.
   */
  function RecommendAsWritten(env: Env, weights: WeightTable, subs: SubscriptionTable, shown: ShownTable,
                              user: UserId, onlySubscribed: bool, picks: seq<nat>, choice: nat): (r: (ShownTable, Response))
    ensures Candidates(env.roster, subs, user, onlySubscribed) == [] ==>
              r == (shown[user := ShownTo(shown, user)], ServerError(EmptyPopulation))
    ensures Candidates(env.roster, subs, user, onlySubscribed) != [] ==>
              r == Recommend(env, weights, subs, shown, user, onlySubscribed, picks, choice)
  {
    var candidates := Candidates(env.roster, subs, user, onlySubscribed);
    Serve(env, shown, user, DrawAsWritten(candidates, weights, picks), choice)
  }

  /**
   The discrepancy: a user with no subscriptions asking for subscribed
   artists only gets a server error from the code as written, where the
   corrected endpoint answers "No more tracks found." and records nothing.
   */
  lemma EmptySubscriptionsCrashAsWritten(env: Env, weights: WeightTable, subs: SubscriptionTable,
                                         shown: ShownTable, user: UserId, picks: seq<nat>, choice: nat)
    requires GetSubscriptions(subs, user) == []
    ensures RecommendAsWritten(env, weights, subs, shown, user, true, picks, choice).1 == ServerError(EmptyPopulation)
    ensures Recommend(env, weights, subs, shown, user, true, picks, choice)
            == (shown[user := ShownTo(shown, user)], Message(NoMoreTracks))
  {
  }

  /**
   The endpoint as written leaves exactly the state the corrected endpoint
   leaves, and answers the same except that "No more tracks found." for an
   empty candidate list becomes a server error.
   */
  lemma AsWrittenDiffersOnlyInAnswer(env: Env, weights: WeightTable, subs: SubscriptionTable, shown: ShownTable,
                                     user: UserId, onlySubscribed: bool, picks: seq<nat>, choice: nat)
    ensures RecommendAsWritten(env, weights, subs, shown, user, onlySubscribed, picks, choice).0
            == Recommend(env, weights, subs, shown, user, onlySubscribed, picks, choice).0
    ensures RecommendAsWritten(env, weights, subs, shown, user, onlySubscribed, picks, choice).1
            != Recommend(env, weights, subs, shown, user, onlySubscribed, picks, choice).1 ==>
              && Candidates(env.roster, subs, user, onlySubscribed) == []
              && RecommendAsWritten(env, weights, subs, shown, user, onlySubscribed, picks, choice).1 == ServerError(EmptyPopulation)
              && Recommend(env, weights, subs, shown, user, onlySubscribed, picks, choice).1 == Message(NoMoreTracks)
  {
  }

  /**
   When every candidate is an allowed artist and every weight is at or
   above the floor, the endpoint answers with a track or with "No more
   tracks found.", never with a server error.
   */
  lemma RecommendNeverFails(env: Env, weights: WeightTable, subs: SubscriptionTable, shown: ShownTable,
                            user: UserId, onlySubscribed: bool, picks: seq<nat>, choice: nat)
    requires AboveFloor(weights)
    requires forall a :: a in Candidates(env.roster, subs, user, onlySubscribed) ==> a in env.roster.names
    ensures !Recommend(env, weights, subs, shown, user, onlySubscribed, picks, choice).1.ServerError?
  {
    DrawSucceedsAboveFloor(Candidates(env.roster, subs, user, onlySubscribed), weights, picks);
  }

  /** Over all allowed artists of a valid roster the endpoint never fails. */
  lemma RecommendAllArtistsNeverFails(env: Env, weights: WeightTable, subs: SubscriptionTable, shown: ShownTable,
                                      user: UserId, picks: seq<nat>, choice: nat)
    requires ValidRoster(env.roster)
    requires AboveFloor(weights)
    ensures !Recommend(env, weights, subs, shown, user, false, picks, choice).1.ServerError?
  {
    RecommendNeverFails(env, weights, subs, shown, user, false, picks, choice);
  }
}

=== FILE: service.dfy ===
/**
 The service as one state machine: the weight table, the shown-track sets
 and the subscription table, with each endpoint one atomic transition.
 */
module Service {
  import opened Domain
  import opened Weights
  import opened Subscriptions
  import opened Selector

  const FeedbackSaved := "Feedback saved"

  datatype State = State(weights: WeightTable, shown: ShownTable, subs: SubscriptionTable)

  /** One request to one endpoint, with the random draws as oracle inputs. */
  datatype Request =
    | GetRecommendation(user: UserId, onlySubscribed: bool, picks: seq<nat>, choice: nat)
    | PostReact(user: UserId, artist: ArtistId, reaction: string)
    | PostSubscribe(user: UserId, artist: ArtistId)
    | GetSubscriptionList(user: UserId)
    | PostFeedback(user: UserId, username: string, message: string)

  /** What every reachable state satisfies, given a duplicate-free subscription file. */
  ghost predicate Inv(s: State) {
    AboveFloor(s.weights) && DuplicateFree(s.subs)
  }

  /** The state at start-up: default weights, nobody shown anything, subscriptions as loaded. */
  function Init(env: Env, loaded: SubscriptionTable): (s: State)
    ensures forall a :: WeightOf(s.weights, a) == DefaultWeight
    ensures forall u :: ShownTo(s.shown, u) == {}
    ensures forall u :: GetSubscriptions(s.subs, u) == GetSubscriptions(loaded, u)
    ensures DuplicateFree(loaded) ==> Inv(s)
  {
    State(InitialWeights(env.roster), map[], loaded)
  }

  /** One request handled to completion. */
  function Step(env: Env, s: State, req: Request): (r: (State, Response))
    ensures Inv(s) ==> Inv(r.0)
    ensures AboveFloor(s.weights) ==> AboveFloor(r.0.weights)
    ensures DuplicateFree(s.subs) ==> DuplicateFree(r.0.subs)
    ensures forall u :: ShownTo(s.shown, u) <= ShownTo(r.0.shown, u)
    ensures r.1.TrackCard? ==>
              && req.GetRecommendation?
              && r.1.id !in ShownTo(s.shown, req.user)
              && r.1.id in ShownTo(r.0.shown, req.user)
    ensures !req.GetRecommendation? ==> r.0.shown == s.shown
    ensures !req.PostReact? ==> r.0.weights == s.weights
    ensures !req.PostSubscribe? ==> r.0.subs == s.subs
  {
    match req
    case GetRecommendation(user, onlySubscribed, picks, choice) =>
      var (shown', resp) := Recommend(env, s.weights, s.subs, s.shown, user, onlySubscribed, picks, choice);
      (s.(shown := shown'), resp)
    case PostReact(_, artist, reaction) =>
      var (weights', resp) := React(s.weights, artist, reaction);
      ReactKeepsFloor(s.weights, artist, reaction);
      (s.(weights := weights'), resp)
    case PostSubscribe(user, artist) =>
      var (subs', resp) := Subscribe(s.subs, user, artist);
      SubscribeKeepsDuplicateFree(s.subs, user, artist);
      (s.(subs := subs'), resp)
    case GetSubscriptionList(user) =>
      (s, SubscriptionList(GetSubscriptions(s.subs, user)))
    case PostFeedback(_, _, _) =>
      (s, Message(FeedbackSaved))
  }

  /** Every track among the responses was outside its user's set in `shown`. */
  ghost predicate AllUnseen(rs: seq<Response>, reqs: seq<Request>, shown: ShownTable)
    requires |rs| == |reqs|
  {
    forall k :: 0 <= k < |rs| && rs[k].TrackCard? ==> rs[k].id !in ShownTo(shown, reqs[k].user)
  }

  /** No user is given the same track id twice among the responses. */
  ghost predicate NoRepeats(rs: seq<Response>, reqs: seq<Request>)
    requires |rs| == |reqs|
  {
    forall i, j ::
      0 <= i < j < |rs| && reqs[i].user == reqs[j].user && rs[i].TrackCard? && rs[j].TrackCard?
      ==> rs[i].id != rs[j].id
  }

  /**
   A first response that was unseen before it, followed by responses unseen
   in a state whose shown sets only grew, gives responses unseen before all.
   */
  lemma ConsUnseen(first: Response, rest: seq<Response>, reqs: seq<Request>, before: ShownTable, after: ShownTable)
    requires |rest| + 1 == |reqs|
    requires first.TrackCard? ==> first.id !in ShownTo(before, reqs[0].user)
    requires forall u :: ShownTo(before, u) <= ShownTo(after, u)
    requires AllUnseen(rest, reqs[1..], after)
    ensures AllUnseen([first] + rest, reqs, before)
  {
    var rs := [first] + rest;
    forall k | 0 <= k < |rs| && rs[k].TrackCard?
      ensures rs[k].id !in ShownTo(before, reqs[k].user)
    {
      if k > 0 {
        assert rs[k] == rest[k - 1] && reqs[k] == reqs[1..][k - 1];
      }
    }
  }

  /**
   A first response recorded as shown, followed by responses that were all
   unseen once it was recorded and that repeat nothing, repeats nothing.
   */
  lemma ConsNoRepeats(first: Response, rest: seq<Response>, reqs: seq<Request>, after: ShownTable)
    requires |rest| + 1 == |reqs|
    requires first.TrackCard? ==> first.id in ShownTo(after, reqs[0].user)
    requires AllUnseen(rest, reqs[1..], after)
    requires NoRepeats(rest, reqs[1..])
    ensures NoRepeats([first] + rest, reqs)
  {
    var rs := [first] + rest;
    forall i, j | 0 <= i < j < |rs| && reqs[i].user == reqs[j].user && rs[i].TrackCard? && rs[j].TrackCard?
      ensures rs[i].id != rs[j].id
    {
      assert rs[j] == rest[j - 1] && reqs[j] == reqs[1..][j - 1];
      if i > 0 {
        assert rs[i] == rest[i - 1] && reqs[i] == reqs[1..][i - 1];
      }
    }
  }

  /**
   A sequence of requests handled one after another; the responses in
   request order. No track it recommends had been shown to that user before
   the run, and no user is recommended the same track twice.
   */
  function Run(env: Env, s: State, reqs: seq<Request>): (r: (State, seq<Response>))
    ensures |r.1| == |reqs|
    ensures Inv(s) ==> Inv(r.0)
    ensures AboveFloor(s.weights) ==> AboveFloor(r.0.weights)
    ensures DuplicateFree(s.subs) ==> DuplicateFree(r.0.subs)
    ensures forall u :: ShownTo(s.shown, u) <= ShownTo(r.0.shown, u)
    ensures AllUnseen(r.1, reqs, s.shown)
    ensures NoRepeats(r.1, reqs)
    decreases |reqs|
  {
    if reqs == [] then (s, [])
    else
      var first := Step(env, s, reqs[0]);
      var rest := Run(env, first.0, reqs[1..]);
      ConsUnseen(first.1, rest.1, reqs, s.shown, first.0.shown);
      ConsNoRepeats(first.1, rest.1, reqs, first.0.shown);
      (rest.0, [first.1] + rest.1)
  }

  /** Every track a run recommends to a user was not among the tracks shown to that user at its start. */
  lemma RecommendedTracksWereUnseen(env: Env, s: State, reqs: seq<Request>, j: nat)
    requires j < |reqs|
    ensures Run(env, s, reqs).1[j].TrackCard? ==>
              Run(env, s, reqs).1[j].id !in ShownTo(s.shown, reqs[j].user)
  {
  }

  /** Within one process lifetime, no user is recommended the same track twice. */
  lemma NoTrackRecommendedTwice(env: Env, s: State, reqs: seq<Request>, i: nat, j: nat)
    requires i < j < |reqs|
    ensures && reqs[i].user == reqs[j].user
            && Run(env, s, reqs).1[i].TrackCard? && Run(env, s, reqs).1[j].TrackCard?
            ==> Run(env, s, reqs).1[i].id != Run(env, s, reqs).1[j].id
  {
  }

  /**
   From start-up, every weight stays at or above the floor whatever requests
   arrive, and a duplicate-free subscription file stays duplicate-free.
   */
  lemma WeightsStayAboveFloor(env: Env, loaded: SubscriptionTable, reqs: seq<Request>, artist: ArtistId)
    ensures WeightOf(Run(env, Init(env, loaded), reqs).0.weights, artist) >= WeightFloor
    ensures DuplicateFree(loaded) ==> DuplicateFree(Run(env, Init(env, loaded), reqs).0.subs)
  {
  }
}

=== FILE: subscriptions.dfy ===
/**
 The subscription manager: a table from user id to the list of artist ids
 the user follows, in the order they were added.
 */
module Subscriptions {
  import opened Domain

  const Subscribed := "Subscribed"

  type SubscriptionTable = map<UserId, seq<ArtistId>>

  /** Every user's list is free of duplicates. */
  ghost predicate DuplicateFree(subs: SubscriptionTable) {
    forall u :: u in subs ==> NoDuplicates(subs[u])
  }

  /** The subscriptions endpoint: the user's stored list, or the empty list for an unknown user. */
  function GetSubscriptions(subs: SubscriptionTable, user: UserId): (list: seq<ArtistId>)
    ensures user in subs ==> list == subs[user]
    ensures user !in subs ==> list == []
  {
    if user in subs then subs[user] else []
  }

  /**
   The subscribe endpoint: make sure the user has a list, append the artist
   unless it is already there, and answer "Subscribed" in every case.
   */
  function Subscribe(subs: SubscriptionTable, user: UserId, artist: ArtistId): (r: (SubscriptionTable, Response))
    ensures r.1 == Message(Subscribed)
    ensures user in r.0 && artist in r.0[user]
    ensures artist in GetSubscriptions(subs, user) ==> r.0 == subs
    ensures artist !in GetSubscriptions(subs, user) ==>
              && |r.0[user]| == |GetSubscriptions(subs, user)| + 1
              && r.0[user][..|r.0[user]| - 1] == GetSubscriptions(subs, user)
              && r.0[user][|r.0[user]| - 1] == artist
    ensures forall a :: a in r.0[user] <==> a in GetSubscriptions(subs, user) || a == artist
    ensures r.0.Keys == subs.Keys + {user}
    ensures forall u :: u in subs && u != user ==> r.0[u] == subs[u]
  {
    var list := GetSubscriptions(subs, user);
    if artist in list then (subs, Message(Subscribed))
    else
      var list' := list + [artist];
      assert list'[..|list'| - 1] == list;
      (subs[user := list'], Message(Subscribed))
  }

  /** Subscribing twice to the same artist is the same as subscribing once. */
  lemma SubscribeIdempotent(subs: SubscriptionTable, user: UserId, artist: ArtistId)
    ensures Subscribe(Subscribe(subs, user, artist).0, user, artist) == Subscribe(subs, user, artist)
  {
  }

  /** Appending an artist that is not in the list keeps the list free of duplicates. */
  lemma AppendKeepsNoDuplicates(list: seq<ArtistId>, artist: ArtistId)
    requires NoDuplicates(list) && artist !in list
    ensures NoDuplicates(list + [artist])
  {
    var list' := list + [artist];
    forall i, j | 0 <= i < j < |list'|
      ensures list'[i] != list'[j]
    {
      if j < |list| {
        assert list'[i] == list[i] && list'[j] == list[j];
      } else {
        assert list'[i] == list[i] && list[i] in list;
      }
    }
  }

  /** Subscribing keeps every user's list free of duplicates. */
  lemma SubscribeKeepsDuplicateFree(subs: SubscriptionTable, user: UserId, artist: ArtistId)
    ensures DuplicateFree(subs) ==> DuplicateFree(Subscribe(subs, user, artist).0)
  {
    var list := GetSubscriptions(subs, user);
    if DuplicateFree(subs) && artist !in list {
      AppendKeepsNoDuplicates(list, artist);
    }
  }

  /** After subscribing, the listing shows the artist and every other user's listing is unchanged. */
  lemma ListingAfterSubscribe(subs: SubscriptionTable, user: UserId, artist: ArtistId, other: UserId)
    requires other != user
    ensures artist in GetSubscriptions(Subscribe(subs, user, artist).0, user)
    ensures GetSubscriptions(Subscribe(subs, user, artist).0, other) == GetSubscriptions(subs, other)
  {
  }
}

=== FILE: track_listing.dfy ===
/**
 The per-artist track listing of the recommendation endpoint: every track of
 every album of the artist, in catalog order, without the tracks the user has
 already been shown and without a second copy of an id already listed.
 */
module TrackListing {
  import opened Domain

  /** The ids of a sequence of tracks. */
  function IdsOf(ts: seq<Track>): set<TrackId> {
    set t | t in ts :: t.id
  }

  /** No two tracks of the sequence share an id. */
  ghost predicate DistinctIds(ts: seq<Track>) {
    forall i, j :: 0 <= i < j < |ts| ==> ts[i].id != ts[j].id
  }

  /** The tracks of all albums, album after album, each in album order. */
  function Flatten(albums: seq<Album>): (ts: seq<Track>)
    ensures forall k, t :: 0 <= k < |albums| && t in albums[k].tracks ==> t in ts
    ensures forall t :: t in ts ==> exists k :: 0 <= k < |albums| && t in albums[k].tracks
  {
    if albums == [] then []
    else
      var prefix := albums[..|albums| - 1];
      var rest := Flatten(prefix);
      assert forall k :: 0 <= k < |prefix| ==> prefix[k] == albums[k];
      rest + albums[|albums| - 1].tracks
  }

  lemma IdsOfSnoc(ts: seq<Track>, t: Track)
    ensures IdsOf(ts + [t]) == IdsOf(ts) + {t.id}
  {
    assert forall u :: u in ts + [t] <==> u in ts || u == t;
  }

  lemma IdsOfDropLast(ts: seq<Track>)
    requires ts != []
    ensures IdsOf(ts) == IdsOf(ts[..|ts| - 1]) + {ts[|ts| - 1].id}
  {
    assert ts == ts[..|ts| - 1] + [ts[|ts| - 1]];
    IdsOfSnoc(ts[..|ts| - 1], ts[|ts| - 1]);
  }

  /**
   Reference definition of the listing: walk `ts` in order and keep a track
   when its id is neither in `shown` nor already kept.
   */
  function Fresh(ts: seq<Track>, shown: set<TrackId>): (r: seq<Track>)
    ensures forall t :: t in r ==> t in ts
    ensures forall t :: t in r ==> t.id !in shown
    ensures DistinctIds(r)
    ensures IdsOf(r) == IdsOf(ts) - shown
  {
    if ts == [] then []
    else
      var prefix := ts[..|ts| - 1];
      var prev := Fresh(prefix, shown);
      var t := ts[|ts| - 1];
      IdsOfDropLast(ts);
      if t.id in shown || t.id in IdsOf(prev) then prev
      else
        IdsOfSnoc(prev, t);
        assert forall i :: 0 <= i < |prev| ==> prev[i] in prev;
        prev + [t]
  }

  /** Extending the input by one track extends the listing by that track exactly when it is new. */
  lemma FreshSnoc(ts: seq<Track>, t: Track, shown: set<TrackId>)
    ensures Fresh(ts + [t], shown)
            == if t.id in shown || t.id in IdsOf(Fresh(ts, shown)) then Fresh(ts, shown)
               else Fresh(ts, shown) + [t]
  {
    assert (ts + [t])[..|ts|] == ts;
  }

  lemma FlattenSnoc(albums: seq<Album>, i: nat)
    requires i < |albums|
    ensures Flatten(albums[..i + 1]) == Flatten(albums[..i]) + albums[i].tracks
  {
    assert albums[..i + 1][..i] == albums[..i];
  }

  /**
   The listing loop of the recommendation endpoint: it walks the albums and
   their tracks with a `seen` set and appends each track whose id is neither
   seen nor already shown to the user.
   */
  method CollectTracks(albums: seq<Album>, shown: set<TrackId>) returns (tracks: seq<Track>)
    ensures tracks == Fresh(Flatten(albums), shown)
    ensures forall t :: t in tracks ==> t.id !in shown
    ensures DistinctIds(tracks)
    ensures IdsOf(tracks) == IdsOf(Flatten(albums)) - shown
  {
    var seen: set<TrackId> := {};
    tracks := [];
    for i := 0 to |albums|
      invariant tracks == Fresh(Flatten(albums[..i]), shown)
      invariant seen == IdsOf(tracks)
    {
      var listing := albums[i].tracks;
      ghost var before := Flatten(albums[..i]);
      assert before + listing[..0] == before;
      for j := 0 to |listing|
        invariant tracks == Fresh(before + listing[..j], shown)
        invariant seen == IdsOf(tracks)
      {
        var track := listing[j];
        assert before + listing[..j + 1] == (before + listing[..j]) + [track];
        FreshSnoc(before + listing[..j], track, shown);
        if track.id !in seen && track.id !in shown {
          IdsOfSnoc(tracks, track);
          seen := seen + {track.id};
          tracks := tracks + [track];
        }
      }
      assert listing[..|listing|] == listing;
      FlattenSnoc(albums, i);
    }
    assert albums[..|albums|] == albums;
  }
}

=== FILE: weights.dfy ===
/**
 The feedback adjuster: a table from artist id to an integer selection
 weight, raised by a "like" and lowered, never below the floor, by a
 "dislike".
 */
module Weights {
  import opened Domain

  /** The weight of an artist with no entry in the table, and of every allowed artist at start-up. */
  const DefaultWeight: int := 1
  const LikeBonus: int := 2
  const DislikePenalty: int := 3
  /** No dislike takes a weight below this. */
  const WeightFloor: int := 1

  const Liked := "Liked"
  const Disliked := "Disliked"
  const UnknownReaction := "Unknown reaction type."

  type WeightTable = map<ArtistId, int>

  /** The weight the service uses for an artist: its entry, or the default when it has none. */
  function WeightOf(weights: WeightTable, artist: ArtistId): int {
    if artist in weights then weights[artist] else DefaultWeight
  }

  /** Every entry of the table is at or above the floor. */
  ghost predicate AboveFloor(weights: WeightTable) {
    forall a :: a in weights ==> weights[a] >= WeightFloor
  }

  function Max(a: int, b: int): int {
    if a >= b then a else b
  }

  /** The start-up table: one entry per allowed artist. */
  function InitialWeights(roster: Roster): (weights: WeightTable)
    ensures weights.Keys == roster.names.Keys
    ensures forall a :: WeightOf(weights, a) == DefaultWeight
    ensures AboveFloor(weights)
  {
    map a | a in roster.names :: DefaultWeight
  }

  /**
   The react endpoint: apply one reaction to one artist and answer with the
   message (or the error) the endpoint returns.
   */
  function React(weights: WeightTable, artist: ArtistId, reaction: string): (r: (WeightTable, Response))
    ensures reaction == "like" ==>
              && r.1 == Message(Liked)
              && artist in r.0
              && WeightOf(r.0, artist) == WeightOf(weights, artist) + LikeBonus
    ensures reaction == "dislike" ==>
              && r.1 == Message(Disliked)
              && artist in r.0
              && WeightOf(r.0, artist) == Max(WeightFloor, WeightOf(weights, artist) - DislikePenalty)
    ensures reaction != "like" && reaction != "dislike" ==>
              r.1 == Error(UnknownReaction) && r.0 == weights
    ensures r.0.Keys <= weights.Keys + {artist}
    ensures forall a :: a in weights && a != artist ==> a in r.0 && r.0[a] == weights[a]
  {
    if reaction == "like" then
      (weights[artist := WeightOf(weights, artist) + LikeBonus], Message(Liked))
    else if reaction == "dislike" then
      (weights[artist := Max(WeightFloor, WeightOf(weights, artist) - DislikePenalty)], Message(Disliked))
    else
      (weights, Error(UnknownReaction))
  }

  /** A dislike leaves the artist at or above the floor, whatever its weight was. */
  lemma DislikeNeverBelowFloor(weights: WeightTable, artist: ArtistId)
    ensures WeightOf(React(weights, artist, "dislike").0, artist) >= WeightFloor
  {
  }

  /** One reaction keeps every weight of the table at or above the floor. */
  lemma ReactKeepsFloor(weights: WeightTable, artist: ArtistId, reaction: string)
    ensures AboveFloor(weights) ==> AboveFloor(React(weights, artist, reaction).0)
    ensures AboveFloor(weights) ==> WeightOf(React(weights, artist, reaction).0, artist) >= WeightFloor
  {
  }

  /** A sequence of (artist, reaction) events applied in order. */
  function ReactAll(weights: WeightTable, events: seq<(ArtistId, string)>): WeightTable
    decreases |events|
  {
    if events == [] then weights
    else ReactAll(React(weights, events[0].0, events[0].1).0, events[1..])
  }

  /** However many reactions arrive, no weight ever falls below the floor. */
  lemma {:induction false} FloorHoldsAfterReactions(weights: WeightTable, events: seq<(ArtistId, string)>)
    requires AboveFloor(weights)
    ensures AboveFloor(ReactAll(weights, events))
    ensures forall a :: WeightOf(ReactAll(weights, events), a) >= WeightFloor
    decreases |events|
  {
    if events != [] {
      ReactKeepsFloor(weights, events[0].0, events[0].1);
      FloorHoldsAfterReactions(React(weights, events[0].0, events[0].1).0, events[1..]);
    }
  }

  /** Starting from the default, a like gives 3 and a following dislike brings it back to 1. */
  lemma LikeThenDislikeExample(artist: ArtistId)
    ensures WeightOf(React(map[], artist, "like").0, artist) == 3
    ensures WeightOf(React(React(map[], artist, "like").0, artist, "dislike").0, artist) == 1
    ensures React(map[], artist, "meh") == (map[], Error(UnknownReaction))
  {
  }
}

=== FILE: wrappers.dfy ===
/** Small failure-carrying datatypes shared by the other modules. */
module Wrappers {

  /** A value that may be absent (Python's `None`). */
  datatype Option<+T> = None | Some(value: T)

  /** Either a computed value or the reason the computation failed. */
  datatype Result<+T, +E> = Success(value: T) | Failure(error: E)
}
